=== FILE: README.md ===
# Agent message envelope and schema hooks

This project is a Dafny model of the agent message of an Aries cloud agent, together with the
hooks its message schema runs on load and on dump.

An agent message is a typed envelope. It has a message type, taken from its kind, and an id.
It also owns a decorator set, which holds out-of-band metadata:

- a global `~thread` decorator;
- per-field decorators, of which the `sig` decorator is a detached signature over one field's value.

The message can do the following:

- sign a field with a wallet, store that signature, look it up and verify it;
- verify every stored signature;
- correlate itself with a previous message through the thread decorator.

The schema enforces a *signed-fields policy* (`signed_fields`) in both directions. A field listed
in the policy travels on the wire only as a `<field>~sig` entry, never as a plain `<field>`
value.

- **On load**, the pre-load hook extracts the decorators and checks the policy. It then
  substitutes each signature's decoded value for the missing plain value. The post-load hook
  attaches the decorators to the loaded message.
- **On dump**, the pre-dump hook moves the signatures out of a copy of the decorators and checks
  the policy. The post-dump hooks then write the output in order: `@type` and `@id`, the
  rendered decorators, the remaining fields, and finally each signature under `<field>~sig`.

The model is written as pure functions over immutable values:

- `wrappers.dfy` has `Option` and `Result`. A Python exception becomes a `Failure` that carries
  one variant of `AgentMessages.Error`.
- `ordered_maps.dfy` models Python `dict`/`OrderedDict` as an entry list in insertion order.
  - `Put` assigns: it overwrites a key where it stands, or appends it if it is new.
  - `Remove` is `del` of a present key. For an absent key it changes nothing, where `del` raises `KeyError`; the one `del` the model needs on a possibly absent key (line 443) checks presence first and fails.
  - `Update` is `dict.update`.
  - `Get` is `dict.get`.
- `values.dfy` holds the JSON-like field values.
- `signatures.dfy` holds the signature decorator.
  - The wallet's signing, verification, decoding and serialization are a record of functions
    (`SignatureService`) that the caller supplies.
- `decorators.dfy` holds the decorator set, and the `field(name)` access that creates an empty
  entry on first use.
- `agent_message.dfy` holds the envelope's operations.
- `agent_message_schema.dfy` holds the load and dump hooks, plus whole-load and whole-dump
  compositions.

Some operations depend on code outside this model. These are parameters of the model:

- the business-field schema, which is `makeObject` on load and the `plain` output on dump;
- parsing decorator keys (`extract`);
- rendering a decorator set (`toDict`);
- generating a UUID (`freshId`).

## Model

| member | source | states |
|---|---|---|
| AgentMessages.New | aries_cloudagent/messaging/agent_message.py:45-70 | construction fails, with the missing-type error, exactly when the kind has no or an empty message type; a non-empty id is kept and marked not new, otherwise the fresh UUID is the id and it is marked new; the id is never empty; a missing decorator set becomes an empty one |
| AgentMessages.GetSignature | aries_cloudagent/messaging/agent_message.py:136-147 | returns the signature stored for the field, or none; an existing entry for the field leaves the message exactly as it was; otherwise the lookup adds an empty entry for that field and changes no signature, no other field's entry, and nothing outside the decorators |
| AgentMessages.SetSignature | aries_cloudagent/messaging/agent_message.py:149-158 | a later lookup of the field returns exactly the stored signature (get after set); the field keeps its other decorators; every other field's decorators, the thread and the message's other parts are unchanged; a well-formed set stays well-formed |
| Decorators.Field | aries_cloudagent/messaging/agent_message.py:147 | `field(name)` returns the field's existing decorators unchanged, or creates an empty entry appended after the existing fields; no other entry changes and keys stay distinct |
| Decorators.SetFieldSignature | aries_cloudagent/messaging/agent_message.py:158 | the field's `sig` becomes the given signature and its other decorators are kept; no other field, the thread or other globals change |
| AgentMessages.SignField | aries_cloudagent/messaging/agent_message.py:160-188 | fails, naming the field, exactly when the field has no value (absent or null), so other falsy values are signed; on success the wallet's signature over the value is returned, and a later lookup returns it; the field keeps its other decorators, and no other field, global decorator or part of the message changes |
| AgentMessages.VerifySignedField | aries_cloudagent/messaging/agent_message.py:190-222 | the three errors in source order: missing signature iff none is stored; verification failure iff the wallet rejects it; signer mismatch iff the wallet accepts it but an expected signer is given and differs; otherwise returns the signature's signer |
| AgentMessages.VerifySignatures | aries_cloudagent/messaging/agent_message.py:224-238 | returns true iff every stored signature is accepted; on false, the last field examined holds the first rejected signature and every earlier one passed |
| AgentMessages.VerifySignaturesMatchesVerifySignedField | aries_cloudagent/messaging/agent_message.py:190-238 | verifying all signatures succeeds iff single-field verification without an expected signer succeeds for every signed field |
| AgentMessages.ThreadId | aries_cloudagent/messaging/agent_message.py:261-266 | a thread decorator with a non-empty thid wins; without a thread decorator, or with a missing or empty thid, the message id is the thread id; it is never empty for a message with an id |
| AgentMessages.AssignThreadId | aries_cloudagent/messaging/agent_message.py:281-289 | the thread decorator becomes exactly (thid, pthid); no other decorator or part of the message changes; the effective thread id is then thid, or the message id for an empty thid |
| AgentMessages.AssignThreadFrom | aries_cloudagent/messaging/agent_message.py:268-279 | no previous message means no change; otherwise the message joins the previous message's effective thread with its parent thread id; nothing else changes |
| AgentMessageSchemas.FirstMissing | aries_cloudagent/messaging/agent_message.py:359-361 | reports no field iff every policy field was found; a reported field is the first policy field, in policy order, that was not found (the search of lines 359-361 and 402-406) |
| AgentMessageSchemas.LoadSignedFields | aries_cloudagent/messaging/agent_message.py:346-358 | the per-field load loop fails only with the unexpected-signature error or the value-and-signature error, naming a signed field; it is the unexpected-signature error exactly when that field is outside the policy; on success it reports exactly the signed fields as found (the full success condition and result are in `LoadSignedFieldsSpec`) |
| AgentMessageSchemas.LoadSignedFieldsFailure | aries_cloudagent/messaging/agent_message.py:353-356 | the value-and-signature error is reported only for a field that had a plain value in the incoming entries, never for a value the loop substituted itself |
| AgentMessageSchemas.LoadSignedFieldsFirstBreach | aries_cloudagent/messaging/agent_message.py:348-356 | when the per-field load loop fails, the field it names is the first signed field, in field order, that is outside the policy or has a plain value; every signature before it is allowed |
| AgentMessageSchemas.LoadSignedFieldsSpec | aries_cloudagent/messaging/agent_message.py:346-358 | the per-field load loop succeeds iff every signature is on a policy field with no plain value; it then appends each signed field's decoded value to the plain entries and reports exactly the signed fields as found |
| AgentMessageSchemas.CheckSignedFields | aries_cloudagent/messaging/agent_message.py:343-362 | the policy check fails only with one of the three load errors: unexpected signature (a signed field outside the policy), value and signature (a signed policy field), or expected signature (the first policy field, in policy order, without a signature); on success every policy field is signed (which error fires for which breach, with the plain-value condition, is in `ExtractDecoratorsSpec`) |
| AgentMessageSchemas.ExtractDecorators | aries_cloudagent/messaging/agent_message.py:343-362 | an extraction error is passed on unchanged; on success the decorators are the extracted ones (success condition, result and error causes are in `ExtractDecoratorsSpec`) |
| AgentMessageSchemas.ExtractDecoratorsSpec | aries_cloudagent/messaging/agent_message.py:324-362 | the pre-load hook succeeds iff the signed-fields policy holds: every signature is on a policy field without a plain value, and every policy field is signed; the result is then the plain entries followed by the decoded signed values; a failure is the unexpected-signature error for a signed field outside the policy, the value-and-signature error for a signed policy field with a plain value, or the expected-signature error for an unsigned policy field when every signature is allowed; a signature error names the first offending field in field order, and the expected-signature error the first unsigned policy field in policy order |
| AgentMessageSchemas.PlainValueDoesNotSatisfyPolicy | aries_cloudagent/messaging/agent_message.py:353-361 | a policy field that has a plain value but no signature makes the load fail |
| AgentMessageSchemas.PopulateDecorators | aries_cloudagent/messaging/agent_message.py:364-377 | the loaded message carries the extracted decorators; nothing else about it changes |
| AgentMessageSchemas.Load | aries_cloudagent/messaging/agent_message.py:324-377 | a load succeeds iff the pre-load hook and the field schema both do; a pre-load error or a field-schema error aborts the load unchanged; the loaded message is the field schema's, carrying the extracted decorators |
| AgentMessageSchemas.LoadSpec | aries_cloudagent/messaging/agent_message.py:324-377 | a whole load succeeds iff the signed-fields policy holds and the field schema accepts the plain entries completed with the decoded signed values; the result is that message with the extracted decorators; a policy breach fails with the error naming its cause |
| AgentMessageSchemas.StageSignatures | aries_cloudagent/messaging/agent_message.py:391-396 | the staged copy has the same field keys, in the same order; the signature table is keyed by exactly the signed fields, in field order |
| AgentMessageSchemas.StageSignaturesSpec | aries_cloudagent/messaging/agent_message.py:391-398 | each field in the copy keeps its decorators minus `sig`; the table maps each signed field to its serialized signature and no other field; both have distinct keys |
| AgentMessageSchemas.CheckDumpDecorators | aries_cloudagent/messaging/agent_message.py:379-408 | the pre-dump hook fails iff some policy field has no signature, and the error names the first such field in policy order; otherwise it leaves the rendered signature-free copy and the signature table |
| AgentMessageSchemas.DumpDecorators | aries_cloudagent/messaging/agent_message.py:410-428 | the output starts with `@type` and then `@id`, each when dumped, ahead of every decorator and field (its keys are in `KeysDumpDecorators`, its exact order in `DumpDecoratorsLayout`) |
| AgentMessageSchemas.KeysDumpDecorators | aries_cloudagent/messaging/agent_message.py:410-428 | the merged output has exactly the keys of the dumped fields and of the rendered decorators; the head holds `@type`/`@id` exactly when dumped |
| AgentMessageSchemas.DumpDecoratorsLayout | aries_cloudagent/messaging/agent_message.py:422-428 | when the rendered decorators use separate keys, the output is `@type`/`@id`, then the decorators, then the other dumped fields in their order |
| AgentMessageSchemas.ReplaceSignatures | aries_cloudagent/messaging/agent_message.py:430-445 | a failure is the missing-field error (`KeyError` on `del`) and names a field of the signature table (success condition, contents and order are in `ReplaceSignaturesOutcome`, `ReplaceSignaturesContents` and `ReplaceSignaturesLayout`) |
| AgentMessageSchemas.ReplaceSignaturesOutcome | aries_cloudagent/messaging/agent_message.py:442-445 | replacing signatures succeeds iff every signed field has a plain entry to delete; otherwise the error names a signed field with no entry |
| AgentMessageSchemas.ReplaceSignaturesContents | aries_cloudagent/messaging/agent_message.py:442-445 | after a successful replacement no signed field is a plain key, each `<field>~sig` holds that field's signature, and every other key keeps its value |
| AgentMessageSchemas.ReplaceSignaturesKeepsKeyPrefix | aries_cloudagent/messaging/agent_message.py:442-445 | replacing signatures never moves a leading run of keys that are not signed fields |
| AgentMessageSchemas.ReplaceSignaturesLayout | aries_cloudagent/messaging/agent_message.py:442-445 | when every signed field is present and no `~sig` key is in use, the output is the input without the signed fields, followed by the `<field>~sig` entries in table order |
| AgentMessageSchemas.Dump | aries_cloudagent/messaging/agent_message.py:379-445 | a pre-dump failure aborts the dump with that error |
| AgentMessageSchemas.DumpOutcome | aries_cloudagent/messaging/agent_message.py:379-445 | a dump succeeds iff every policy field is signed and every signed field was dumped or rendered; a failure names a policy field without a signature, or a signed field with nothing to replace |
| AgentMessageSchemas.DumpOutput | aries_cloudagent/messaging/agent_message.py:379-445 | after a successful dump no signed field is a bare key, and each is `<field>~sig` holding its serialized signature |
| AgentMessageSchemas.DumpKeepsHead | aries_cloudagent/messaging/agent_message.py:422-428 | a successful dump starts with `@type` then `@id` (each when dumped), unless one of them is itself signed |
| AgentMessageSchemas.DumpLayout | aries_cloudagent/messaging/agent_message.py:379-445 | with separate key spaces, the whole dump is exactly: `@type`/`@id`, the rendered decorators, the other dumped fields minus the signed ones, then one `<field>~sig` per signature in field order |
| AgentMessageSchemas.LoadedMessagePassesDumpCheck | aries_cloudagent/messaging/agent_message.py:343-406 | a message that loaded under a policy passes the pre-dump check under that policy; the converse does not hold |
| AgentMessageSchemas.DumpCheckAcceptsWhatLoadRejects | aries_cloudagent/messaging/agent_message.py:343-406 | the pre-dump check is weaker than the load check: with no policy, a message whose only signature is on `foo` passes the pre-dump check, while loading the same decorators fails with the unexpected-signature error for `foo` |

## Left out

- The UUID generator is not modelled. The generated id is the parameter `freshId`, which is assumed non-empty.
- The wallet and the signature decorator's cryptography are not modelled.
  - `SignatureService` supplies them as functions.
  - The `async`/`await` scheduling and cancellation are not modelled.
- Decorator-key parsing (`extract_decorators` of the decorator set) is a parameter, and so is `to_dict`. The decorator package is not part of this model.
- `copy()` is taken as a deep, independent snapshot. With value semantics, the pre-dump staging never alters the message's own signatures.
- The business-field schema is not modelled. This covers marshmallow's field (de)serialization, the `@type` dump-only field and the `@id` field. It is `makeObject` on load and the `plain` entries on dump.
- The handler-class and accessor properties are not modelled, because they hold no logic. This covers `_get_handler_class`, `Handler`, `_type`, `_id`, `_decorators` and `_thread` (lines 77-134 and 240-259).
  - Setting the thread to a plain dict (line 259) is not modelled. The thread slot holds only a thread decorator, and no other value can be stored under `thread`.
- Truthiness is simplified:
  - `_decorators or DecoratorSet()` replaces only a missing set, and keeps every given set. The decorator set's truthiness is defined in the decorator package, which is not part of this model. If it is falsy whenever it holds no global decorators, then a set holding only per-field decorators, such as signatures, would be replaced by an empty set at line 64 and those decorators lost. The model does not reproduce that possible loss.
  - A present signature, thread decorator or previous message is taken as truthy.
- The schema constructor's `TypeError` for a missing `model_class` (lines 305-322) is not modelled, because it is a class-configuration check.
  - The model also gives every load and dump fresh schema state. It does not model state left over on a reused schema instance.
- AgentMessages.SignField, AgentMessages.VerifySignedField, AgentMessages.VerifySignatures, AgentMessageSchemas.ExtractDecoratorsSpec and AgentMessageSchemas.LoadSpec rest on the signature operations never raising. In the source, `verify` can fault on a malformed encoding and `decode` runs on signatures that arrive on the wire; such a fault would abort the enclosing call, which these contracts do not cover. `create`'s clock read for a missing timestamp is also fixed for each (value, verkey, timestamp), so signing the same value twice without a timestamp yields the same signature.
- Floating-point numbers are not modelled as IEEE doubles. A fractional JSON number is an exact `Real`; no modelled behaviour looks at a value beyond whether it is null.
- The exception classes (`ValidationError`, `BaseModelError`, `KeyError`) and their message texts are not modelled. Each error condition is one `Error` variant.
- `sign_field` reads the field with `getattr`. The model reads only the message's attributes, not its methods or properties.
- AgentMessageSchemas.ReplaceSignaturesOutcome, AgentMessageSchemas.ReplaceSignaturesContents, AgentMessageSchemas.DumpOutcome, AgentMessageSchemas.DumpOutput and AgentMessageSchemas.DumpLayout assume that signed field names contain no `~`.
  - Without that, one field's `<field>~sig` key could be another signed field's name.
- AgentMessageSchemas.DumpLayout additionally assumes separate key spaces:
  - rendered decorators, dumped fields and `~sig` keys do not collide;
  - every signed field was dumped as a plain field other than `@type`/`@id`.
  - Outside those hypotheses, AgentMessageSchemas.DumpOutcome and AgentMessageSchemas.DumpOutput still describe the result key by key.
- AgentMessageSchemas.DumpKeepsHead assumes that neither `@type` nor `@id` is itself a signed field.

=== FILE: agent_message.dfy ===
/**
  The agent message envelope: a typed message with an id, a decorator set,
  per-field detached signatures and thread correlation.
 */
module AgentMessages {
  import opened Wrappers
  import opened Values
  import opened Signatures
  import opened Decorators
  import opened OrderedMaps

  /** The class-level metadata of one message kind: its `message_type`, possibly unset. */
  datatype MessageKind = MessageKind(messageType: Option<string>)

  /**
    An agent message: its kind's type, its id, whether that id was generated
    at construction, the decorator set it owns, and the values of its
    attributes by name (an attribute the message lacks is simply absent).
   */
  datatype AgentMessage = AgentMessage(
    messageType: string,
    id: string,
    newId: bool,
    decorators: DecoratorSet,
    attributes: map<string, Value>)

  /** The errors raised by the message and its schema. */
  datatype Error =
    | MissingMessageType                          // TypeError: no message_type on the kind
    | NoValueToSign(field: string)                // the field has no value to sign
    | MissingFieldSignature(field: string)        // no stored signature to verify
    | SignatureVerificationFailed(field: string)  // the wallet rejected the signature
    | SignerMismatch(field: string)               // signed by another verkey than expected
    | UnexpectedFieldSignature(field: string)     // load: signature on a field outside the policy
    | FieldValueAndSignature(field: string)       // load: both a plain value and a signature
    | ExpectedFieldSignature(field: string)       // load: a policy field has no signature
    | MissingSignatureForField(field: string)     // dump: a policy field has no signature
    | MissingDumpedField(field: string)           // dump: KeyError deleting a signed field's key
    | InvalidDecorator(reason: string)            // load: a decorator key could not be parsed
    | InvalidFields(reason: string)               // load: the field schema rejected the data

  /**
    Builds a message of kind `kind`. A non-empty `id` is kept; otherwise
    `freshId` (a newly generated UUID, never empty) becomes the id and the
    message records that its id is new. A kind without a message type cannot
    be instantiated. A missing decorator set becomes an empty one.
   */
  function New(
    kind: MessageKind,
    id: Option<string>,
    freshId: string,
    decorators: Option<DecoratorSet>,
    attributes: map<string, Value>): (r: Result<AgentMessage, Error>)
    requires freshId != ""
    ensures r.Failure? <==> kind.messageType.GetOr("") == ""
    ensures r.Failure? ==> r.error == MissingMessageType
    ensures r.Success? ==> Some(r.value.messageType) == kind.messageType && r.value.messageType != ""
    ensures r.Success? ==> r.value.id != ""
    ensures r.Success? ==> (r.value.newId <==> id.GetOr("") == "")
    ensures r.Success? && !r.value.newId ==> Some(r.value.id) == id
    ensures r.Success? && r.value.newId ==> r.value.id == freshId
    ensures r.Success? ==> r.value.decorators == decorators.GetOr(EmptyDecoratorSet)
    ensures r.Success? ==> r.value.attributes == attributes
  {
    var (messageId, newId) := if id.Some? && id.value != "" then (id.value, false) else (freshId, true);
    var decoratorSet := if decorators.Some? then decorators.value else EmptyDecoratorSet;
    if kind.messageType.None? || kind.messageType.value == "" then
      Failure(MissingMessageType)
    else
      Success(AgentMessage(kind.messageType.value, messageId, newId, decoratorSet, attributes))
  }

  /**
    `get_signature(name)`: the signature stored for field `name`, together
    with the message after the lookup (which may now hold an empty decorator
    entry for that field, but no other change).
   */
  function GetSignature(m: AgentMessage, name: string): (r: (AgentMessage, Option<FieldSignature>))
    ensures r.1 == SignatureOf(m.decorators, name)
    ensures r.0 == m.(decorators := r.0.decorators)
    ensures AgreeExceptField(m.decorators, r.0.decorators, name)
    ensures forall n :: SignatureOf(r.0.decorators, n) == SignatureOf(m.decorators, n)
    ensures Get(m.decorators.fields, name).Some? ==> r.0 == m
    ensures Get(m.decorators.fields, name).None? ==> Get(r.0.decorators.fields, name) == Some(NoFieldDecorators)
  {
    var (d, fd) := Field(m.decorators, name);
    (m.(decorators := d), fd.sig)
  }

  /** `set_signature(name, sig)`: adds or replaces the signature of field `name`. */
  function SetSignature(m: AgentMessage, name: string, sig: FieldSignature): (r: AgentMessage)
    ensures GetSignature(r, name).1 == Some(sig)
    ensures r == m.(decorators := r.decorators)
    ensures AgreeExceptField(m.decorators, r.decorators, name)
    ensures Get(r.decorators.fields, name) == Some(Field(m.decorators, name).1.(sig := Some(sig)))
    ensures WellFormed(m.decorators) ==> WellFormed(r.decorators)
  {
    m.(decorators := SetFieldSignature(m.decorators, name, sig))
  }

  /**
    `sign_field(name, verkey, wallet, timestamp)`: signs the value of field
    `name` and stores the signature on the message. Only a missing value
    (`None`) is refused; other falsy values are signed like any other.
   */
  function SignField(
    m: AgentMessage,
    name: string,
    signerVerkey: string,
    service: SignatureService,
    timestamp: Option<int>): (r: Result<(AgentMessage, FieldSignature), Error>)
    ensures r.Failure? <==> name !in m.attributes || m.attributes[name] == Null
    ensures r.Failure? ==> r.error == NoValueToSign(name)
    ensures r.Success? ==> r.value.1 == service.create(m.attributes[name], signerVerkey, timestamp)
    ensures r.Success? ==> GetSignature(r.value.0, name).1 == Some(r.value.1)
    ensures r.Success? ==> r.value.0 == m.(decorators := r.value.0.decorators)
    ensures r.Success? ==> AgreeExceptField(m.decorators, r.value.0.decorators, name)
    ensures r.Success? ==>
              Get(r.value.0.decorators.fields, name) == Some(Field(m.decorators, name).1.(sig := Some(r.value.1)))
  {
    var value := if name in m.attributes then m.attributes[name] else Null;
    if value == Null then
      Failure(NoValueToSign(name))
    else
      var sig := service.create(value, signerVerkey, timestamp);
      Success((SetSignature(m, name, sig), sig))
  }

  /**
    `verify_signed_field(name, wallet, verkey)`: checks, in order, that field
    `name` has a signature, that the wallet accepts it, and, when an expected
    signer is given, that it was made by that signer; then returns the
    signer's verkey. The message after the lookup is returned alongside.
   */
  function VerifySignedField(
    m: AgentMessage,
    name: string,
    service: SignatureService,
    signerVerkey: Option<string>): (r: (AgentMessage, Result<string, Error>))
    ensures r.0 == GetSignature(m, name).0
    ensures SignatureOf(m.decorators, name).None? <==> r.1 == Failure(MissingFieldSignature(name))
    ensures SignatureOf(m.decorators, name).Some? ==>
              var sig := SignatureOf(m.decorators, name).value;
              && (r.1 == Failure(SignatureVerificationFailed(name)) <==> !service.verify(sig))
              && (r.1 == Failure(SignerMismatch(name)) <==>
                    service.verify(sig) && signerVerkey.Some? && signerVerkey.value != sig.signer)
              && (r.1.Success? ==> r.1.value == sig.signer)
    ensures r.1.Failure? ==> r.1.error in {MissingFieldSignature(name), SignatureVerificationFailed(name), SignerMismatch(name)}
  {
    var (m', sig) := GetSignature(m, name);
    if sig.None? then
      (m', Failure(MissingFieldSignature(name)))
    else if !service.verify(sig.value) then
      (m', Failure(SignatureVerificationFailed(name)))
    else if signerVerkey.Some? && sig.value.signer != signerVerkey.value then
      (m', Failure(SignerMismatch(name)))
    else
      (m', Success(sig.value.signer))
  }

  /** A field's decorators pass verification when they hold no signature or one the wallet accepts. */
  predicate SignaturePasses(fd: FieldDecorators, verify: FieldSignature -> bool) {
    fd.sig.None? || verify(fd.sig.value)
  }

  /** Every signature stored on the decorator set is accepted. */
  predicate AllSignaturesPass(d: DecoratorSet, verify: FieldSignature -> bool) {
    forall i :: 0 <= i < |d.fields| ==> SignaturePasses(d.fields[i].1, verify)
  }

  /**
    `verify_signatures(wallet)`: walks the per-field decorators in order and
    stops at the first signature the wallet rejects. `examined` counts the
    field entries looked at, so a failure is always the last one examined.
   */
  method VerifySignatures(m: AgentMessage, service: SignatureService) returns (ok: bool, examined: nat)
    ensures ok <==> AllSignaturesPass(m.decorators, service.verify)
    ensures examined <= |m.decorators.fields|
    ensures ok ==> examined == |m.decorators.fields|
    ensures !ok ==> 0 < examined && !SignaturePasses(m.decorators.fields[examined - 1].1, service.verify)
    ensures forall i :: 0 <= i < examined - 1 ==> SignaturePasses(m.decorators.fields[i].1, service.verify)
  {
    var fields := m.decorators.fields;
    examined := 0;
    while examined < |fields|
      invariant examined <= |fields|
      invariant forall i :: 0 <= i < examined ==> SignaturePasses(fields[i].1, service.verify)
    {
      var fd := fields[examined].1;
      examined := examined + 1;
      if fd.sig.Some? && !service.verify(fd.sig.value) {
        return false, examined;
      }
    }
    return true, examined;
  }

  /**
    `verify_signatures` accepts exactly when `verify_signed_field` without an
    expected signer succeeds on every field that carries a signature: a
    single rejected signature makes the whole check fail.
   */
  lemma VerifySignaturesMatchesVerifySignedField(m: AgentMessage, service: SignatureService)
    requires WellFormed(m.decorators)
    ensures AllSignaturesPass(m.decorators, service.verify) <==>
              forall name :: SignatureOf(m.decorators, name).Some? ==>
                VerifySignedField(m, name, service, None).1.Success?
  {
    var fields := m.decorators.fields;
    if AllSignaturesPass(m.decorators, service.verify) {
      forall name | SignatureOf(m.decorators, name).Some?
        ensures VerifySignedField(m, name, service, None).1.Success?
      {
        GetFound(fields, name);
      }
    } else {
      var i :| 0 <= i < |fields| && !SignaturePasses(fields[i].1, service.verify);
      GetAt(fields, i);
      assert !VerifySignedField(m, fields[i].0, service, None).1.Success?;
    }
  }

  /** `_thread_id`: the thread decorator's `thid` when it is set and non-empty, else the message id. */
  function ThreadId(m: AgentMessage): (r: string)
    ensures r == m.id || (m.decorators.thread.Some? && m.decorators.thread.value.thid == Some(r))
    ensures m.decorators.thread.Some? && m.decorators.thread.value.thid.GetOr("") != "" ==>
              r == m.decorators.thread.value.thid.value
    ensures m.decorators.thread.None? || m.decorators.thread.value.thid.GetOr("") == "" ==> r == m.id
    ensures m.id != "" ==> r != ""
  {
    var thread := m.decorators.thread;
    if thread.Some? && thread.value.thid.Some? && thread.value.thid.value != "" then
      thread.value.thid.value
    else
      m.id
  }

  /** The parent thread id carried by a message's thread decorator, if it has one. */
  function ParentThreadId(m: AgentMessage): Option<string> {
    if m.decorators.thread.Some? then m.decorators.thread.value.pthid else None
  }

  /** `assign_thread_id(thid, pthid)`: replaces the thread decorator and nothing else. */
  function AssignThreadId(m: AgentMessage, thid: string, pthid: Option<string>): (r: AgentMessage)
    ensures r.decorators.thread == Some(ThreadDecorator(Some(thid), pthid))
    ensures r == m.(decorators := r.decorators)
    ensures r.decorators == m.decorators.(thread := r.decorators.thread)
    ensures ThreadId(r) == if thid != "" then thid else m.id
  {
    m.(decorators := m.decorators.(thread := Some(ThreadDecorator(Some(thid), pthid))))
  }

  /**
    `assign_thread_from(prev)`: continues the thread of a previous message.
    Without a previous message nothing changes; otherwise the new thread id is
    the previous message's effective thread id and the parent thread id is
    copied from its thread decorator.
   */
  function AssignThreadFrom(m: AgentMessage, prev: Option<AgentMessage>): (r: AgentMessage)
    ensures prev.None? ==> r == m
    ensures prev.Some? ==>
              r.decorators.thread == Some(ThreadDecorator(Some(ThreadId(prev.value)), ParentThreadId(prev.value)))
    ensures prev.Some? ==> r == m.(decorators := m.decorators.(thread := r.decorators.thread))
    ensures prev.Some? && ThreadId(prev.value) != "" ==> ThreadId(r) == ThreadId(prev.value)
    ensures prev.Some? && prev.value.id != "" ==> ThreadId(r) == ThreadId(prev.value)
  {
    match prev
    case None => m
    case Some(msg) =>
      var thread := msg.decorators.thread;
      var thid := if thread.Some? && thread.value.thid.Some? && thread.value.thid.value != "" then thread.value.thid.value else msg.id;
      var pthid := if thread.Some? then thread.value.pthid else None;
      AssignThreadId(m, thid, pthid)
  }
}

=== FILE: agent_message_schema.dfy ===
/**
  The message schema's hooks, which enforce the signed-fields policy on both
  directions: a field listed in the policy travels on the wire only as a
  detached `<field>~sig` signature, never as a plain value. Each load or dump
  starts from fresh per-call state; the business-field schema, the parsing of
  decorator keys and the rendering of a decorator set are supplied by the
  caller as functions.
 */
module AgentMessageSchemas {
  import opened Wrappers
  import opened Values
  import opened Signatures
  import opened Decorators
  import opened OrderedMaps
  import opened AgentMessages

  /** A message on the wire: JSON object entries in emission order. */
  type Wire = seq<(string, Value)>

  /** The schema-level metadata of a message kind: its `signed_fields`, possibly unset. */
  datatype SchemaMeta = SchemaMeta(signedFields: Option<seq<string>>)

  /** The signed-fields policy; an unset one requires no signatures. */
  function ExpectFields(meta: SchemaMeta): seq<string> {
    meta.signedFields.GetOr([])
  }

  /** The fields of a per-field decorator list that carry a signature, in order. */
  function SignedNames(fields: seq<(string, FieldDecorators)>): (r: seq<string>)
    ensures forall n :: n in r ==> n in Keys(fields)
    decreases |fields|
  {
    if |fields| == 0 then []
    else if fields[0].1.sig.Some? then [fields[0].0] + SignedNames(fields[1..])
    else SignedNames(fields[1..])
  }

  /** `f` is missing from `found`, and every field ahead of it in the policy is there. */
  ghost predicate FirstNotFound(policy: seq<string>, found: seq<string>, f: string) {
    exists i :: 0 <= i < |policy| && policy[i] == f && f !in found && forall j :: 0 <= j < i ==> policy[j] in found
  }

  /** The first field of the policy, in policy order, that is not among `found`. */
  function FirstMissing(policy: seq<string>, found: seq<string>): (r: Option<string>)
    ensures r.None? <==> forall f :: f in policy ==> f in found
    ensures r.Some? ==> r.value in policy && r.value !in found
    ensures r.Some? ==> FirstNotFound(policy, found, r.value)
    decreases |policy|
  {
    if |policy| == 0 then None
    else if policy[0] !in found then Some(policy[0])
    else
      var r := FirstMissing(policy[1..], found);
      if r.Some? then
        FirstNotFoundCons(policy, found, r.value);
        r
      else r
  }

  /** A field first missing from the rest of a policy whose head was found is first missing from it. */
  lemma FirstNotFoundCons(policy: seq<string>, found: seq<string>, f: string)
    requires |policy| > 0 && policy[0] in found
    requires FirstNotFound(policy[1..], found, f)
    ensures FirstNotFound(policy, found, f)
  {
  }

  // ---------------------------------------------------------------------
  // Load: the pre-load hook, then the post-load hook.
  // ---------------------------------------------------------------------

  /**
    The loop of the pre-load hook over the per-field decorators: a field that
    carries a signature must be in the policy and must not also have a plain
    value; its decoded value is then assigned as the plain value. Returns the
    rewritten entries and the names of the fields found signed.
   */
  function LoadSignedFields(
    processed: Wire,
    fields: seq<(string, FieldDecorators)>,
    policy: seq<string>,
    decode: FieldSignature -> (Value, int)): (r: Result<(Wire, seq<string>), Error>)
    ensures r.Success? ==> r.value.1 == SignedNames(fields)
    ensures r.Failure? ==>
              && (r.error.UnexpectedFieldSignature? || r.error.FieldValueAndSignature?)
              && r.error.field in SignedNames(fields)
              && (r.error.UnexpectedFieldSignature? <==> r.error.field !in policy)
    decreases |fields|
  {
    if |fields| == 0 then Success((processed, []))
    else
      var name := fields[0].0;
      var sig := fields[0].1.sig;
      if sig.None? then LoadSignedFields(processed, fields[1..], policy, decode)
      else if name !in policy then Failure(UnexpectedFieldSignature(name))
      else if name in Keys(processed) then Failure(FieldValueAndSignature(name))
      else
        var rest :- LoadSignedFields(Put(processed, name, decode(sig.value).0), fields[1..], policy, decode);
        Success((rest.0, [name] + rest.1))
  }

  /**
    The pre-load policy check on already extracted entries and decorators:
    the per-field loop, then a signature for every field of the policy.
   */
  function CheckSignedFields(
    processed: Wire,
    d: DecoratorSet,
    policy: seq<string>,
    decode: FieldSignature -> (Value, int)): (r: Result<Wire, Error>)
    ensures r.Success? ==> forall f :: f in policy ==> f in SignedNames(d.fields)
    ensures r.Failure? ==>
              || (r.error.UnexpectedFieldSignature? && r.error.field in SignedNames(d.fields) && r.error.field !in policy)
              || (r.error.FieldValueAndSignature? && r.error.field in SignedNames(d.fields) && r.error.field in policy)
              || (r.error.ExpectedFieldSignature? && FirstNotFound(policy, SignedNames(d.fields), r.error.field))
  {
    var loaded :- LoadSignedFields(processed, d.fields, policy, decode);
    match FirstMissing(policy, loaded.1)
    case Some(f) => Failure(ExpectedFieldSignature(f))
    case None => Success(loaded.0)
  }

  /**
    `extract_decorators` (pre-load): splits the incoming entries into plain
    entries and a decorator set with `extract`, then enforces the policy and
    substitutes each signature's decoded value for the missing plain value.
   */
  function ExtractDecorators(
    data: Wire,
    meta: SchemaMeta,
    extract: Wire -> Result<(Wire, DecoratorSet), Error>,
    decode: FieldSignature -> (Value, int)): (r: Result<(Wire, DecoratorSet), Error>)
    ensures r.Success? ==> extract(data).Success? && r.value.1 == extract(data).value.1
    ensures extract(data).Failure? ==> r == Failure(extract(data).error)
  {
    var extracted :- extract(data);
    var processed :- CheckSignedFields(extracted.0, extracted.1, ExpectFields(meta), decode);
    Success((processed, extracted.1))
  }

  /** `populate_decorators` (post-load): attaches the extracted decorators to the loaded message. */
  function PopulateDecorators(obj: AgentMessage, d: DecoratorSet): (r: AgentMessage)
    ensures r.decorators == d
    ensures r == obj.(decorators := r.decorators)
  {
    obj.(decorators := d)
  }

  /**
    A whole load: the pre-load hook, the business-field schema (`makeObject`,
    which builds the message from the plain entries), then the post-load
    hook. Any error aborts the load.
   */
  function Load(
    data: Wire,
    meta: SchemaMeta,
    extract: Wire -> Result<(Wire, DecoratorSet), Error>,
    decode: FieldSignature -> (Value, int),
    makeObject: Wire -> Result<AgentMessage, Error>): (r: Result<AgentMessage, Error>)
    ensures var x := ExtractDecorators(data, meta, extract, decode);
            r.Success? <==> x.Success? && makeObject(x.value.0).Success?
    ensures var x := ExtractDecorators(data, meta, extract, decode);
            x.Failure? ==> r == Failure(x.error)
    ensures var x := ExtractDecorators(data, meta, extract, decode);
            x.Success? && makeObject(x.value.0).Failure? ==> r == Failure(makeObject(x.value.0).error)
    ensures r.Success? ==>
              r.value == makeObject(ExtractDecorators(data, meta, extract, decode).value.0).value.(decorators := extract(data).value.1)
  {
    var processed :- ExtractDecorators(data, meta, extract, decode);
    var obj :- makeObject(processed.0);
    Success(PopulateDecorators(obj, processed.1))
  }

  /** The decoded value of every signed field, as entries in field order. */
  function DecodedEntries(fields: seq<(string, FieldDecorators)>, decode: FieldSignature -> (Value, int)): Wire
    decreases |fields|
  {
    if |fields| == 0 then []
    else if fields[0].1.sig.Some? then [(fields[0].0, decode(fields[0].1.sig.value).0)] + DecodedEntries(fields[1..], decode)
    else DecodedEntries(fields[1..], decode)
  }

  /** No field carrying a signature is outside the policy or also has a plain value. */
  ghost predicate SignaturesAllowed(plain: Wire, fields: seq<(string, FieldDecorators)>, policy: seq<string>) {
    forall i :: 0 <= i < |fields| && fields[i].1.sig.Some? ==> fields[i].0 in policy && fields[i].0 !in Keys(plain)
  }

  /**
    The signed-fields policy on incoming data: every signature is on a policy
    field that has no plain value, and every policy field has a signature.
   */
  ghost predicate LoadPolicyHolds(plain: Wire, d: DecoratorSet, policy: seq<string>) {
    && SignaturesAllowed(plain, d.fields, policy)
    && forall f :: f in policy ==> SignatureOf(d, f).Some?
  }

  /** Field `f` carries a signature that the policy forbids or that clashes with a plain value. */
  ghost predicate SignatureBreaks(plain: Wire, f: (string, FieldDecorators), policy: seq<string>) {
    f.1.sig.Some? && (f.0 !in policy || f.0 in Keys(plain))
  }

  /** Field `name` is at the first position whose signature breaks the policy. */
  ghost predicate FirstBreach(plain: Wire, fields: seq<(string, FieldDecorators)>, policy: seq<string>, name: string) {
    exists i :: 0 <= i < |fields| && fields[i].0 == name && SignatureBreaks(plain, fields[i], policy)
                && SignaturesAllowed(plain, fields[..i], policy)
  }

  /**
    Which load error reports which breach of the policy: a signature on a
    field outside the policy; a signature on a policy field that also has a
    plain value; a policy field without a signature, once every signature is
    allowed. A signature breach is the first in field order, a missing
    signature the first in policy order.
   */
  ghost predicate LoadErrorCause(e: Error, plain: Wire, d: DecoratorSet, policy: seq<string>) {
    match e
    case UnexpectedFieldSignature(f) =>
      SignatureOf(d, f).Some? && f !in policy && FirstBreach(plain, d.fields, policy, f)
    case FieldValueAndSignature(f) =>
      SignatureOf(d, f).Some? && f in policy && f in Keys(plain) && FirstBreach(plain, d.fields, policy, f)
    case ExpectedFieldSignature(f) =>
      && SignaturesAllowed(plain, d.fields, policy) && f in policy && SignatureOf(d, f).None?
      && FirstNotFound(policy, SignedNames(d.fields), f)
    case _ => false
  }

  /**
    The loop of the pre-load hook succeeds exactly when every signature is
    allowed, and then appends the decoded signed values to the plain entries
    and reports every signed field as found.
   */
  lemma {:induction false} LoadSignedFieldsSpec(
    processed: Wire,
    fields: seq<(string, FieldDecorators)>,
    policy: seq<string>,
    decode: FieldSignature -> (Value, int))
    requires DistinctKeys(fields)
    ensures LoadSignedFields(processed, fields, policy, decode).Success? <==> SignaturesAllowed(processed, fields, policy)
    ensures LoadSignedFields(processed, fields, policy, decode).Success? ==>
              LoadSignedFields(processed, fields, policy, decode).value
                == (processed + DecodedEntries(fields, decode), SignedNames(fields))
    decreases |fields|
  {
    if |fields| == 0 {
      assert processed + [] == processed;
    } else {
      var name := fields[0].0;
      var sig := fields[0].1.sig;
      var tail := fields[1..];
      SignaturesAllowedCons(processed, fields, policy);
      if sig.None? {
        LoadSignedFieldsSpec(processed, tail, policy, decode);
      } else if name in policy && name !in Keys(processed) {
        var v := decode(sig.value).0;
        var processed' := processed + [(name, v)];
        var rest := LoadSignedFields(processed', tail, policy, decode);
        assert (LoadSignedFields(processed, fields, policy, decode).Success? <==> rest.Success?) by {
          PutFresh(processed, name, v);
        }
        assert SignaturesAllowed(processed', tail, policy) <==> SignaturesAllowed(processed, tail, policy) by {
          SignaturesAllowedExtend(processed, (name, v), tail, policy);
        }
        LoadSignedFieldsSpec(processed', tail, policy, decode);
        if LoadSignedFields(processed, fields, policy, decode).Success? {
          assert LoadSignedFields(processed, fields, policy, decode).value
                   == (processed' + DecodedEntries(tail, decode), [name] + SignedNames(tail)) by {
            PutFresh(processed, name, v);
          }
          assert processed' + DecodedEntries(tail, decode) == processed + DecodedEntries(fields, decode);
        }
      }
    }
  }

  /** `SignaturesAllowed` of a non-empty list: its first field, then the rest. */
  lemma SignaturesAllowedCons(plain: Wire, fields: seq<(string, FieldDecorators)>, policy: seq<string>)
    requires |fields| > 0
    ensures SignaturesAllowed(plain, fields, policy) <==>
              && (fields[0].1.sig.Some? ==> fields[0].0 in policy && fields[0].0 !in Keys(plain))
              && SignaturesAllowed(plain, fields[1..], policy)
  {
  }

  /** Adding a plain entry for a key no field of the list has leaves `SignaturesAllowed` unchanged. */
  lemma SignaturesAllowedExtend(plain: Wire, entry: (string, Value), fields: seq<(string, FieldDecorators)>, policy: seq<string>)
    requires entry.0 !in Keys(fields)
    ensures SignaturesAllowed(plain + [entry], fields, policy) <==> SignaturesAllowed(plain, fields, policy)
  {
    KeysAppend(plain, [entry]);
    forall i | 0 <= i < |fields|
      ensures fields[i].0 != entry.0
    {
      KeyAt(fields, i);
    }
  }

  /**
    The loop of the pre-load hook reports a field that has both a signature
    and a value only when the value was among the plain entries it started
    from, not one it substituted itself.
   */
  lemma {:induction false} LoadSignedFieldsFailure(
    processed: Wire,
    fields: seq<(string, FieldDecorators)>,
    policy: seq<string>,
    decode: FieldSignature -> (Value, int))
    requires DistinctKeys(fields)
    requires LoadSignedFields(processed, fields, policy, decode).Failure?
    ensures var e := LoadSignedFields(processed, fields, policy, decode).error;
            e.FieldValueAndSignature? ==> e.field in Keys(processed)
    decreases |fields|
  {
    var name := fields[0].0;
    var sig := fields[0].1.sig;
    var tail := fields[1..];
    if sig.None? {
      LoadSignedFieldsFailure(processed, tail, policy, decode);
    } else if name in policy && name !in Keys(processed) {
      var v := decode(sig.value).0;
      var processed' := Put(processed, name, v);
      var e := LoadSignedFields(processed', tail, policy, decode).error;
      assert LoadSignedFields(processed, fields, policy, decode).error == e;
      LoadSignedFieldsFailure(processed', tail, policy, decode);
      if e.FieldValueAndSignature? {
        KeysPut(processed, name, v);
        assert e.field in Keys(tail);
        assert e.field != name;
      }
    }
  }

  /**
    The loop of the pre-load hook reports the first signed field, in field
    order, whose signature breaks the policy; every signature before it is
    allowed.
   */
  lemma {:induction false} LoadSignedFieldsFirstBreach(
    processed: Wire,
    fields: seq<(string, FieldDecorators)>,
    policy: seq<string>,
    decode: FieldSignature -> (Value, int))
    requires DistinctKeys(fields)
    requires LoadSignedFields(processed, fields, policy, decode).Failure?
    ensures FirstBreach(processed, fields, policy, LoadSignedFields(processed, fields, policy, decode).error.field)
    decreases |fields|
  {
    var name := fields[0].0;
    var sig := fields[0].1.sig;
    var tail := fields[1..];
    var e := LoadSignedFields(processed, fields, policy, decode).error;
    if SignatureBreaks(processed, fields[0], policy) {
      assert fields[..0] == [];
      assert fields[0].0 == e.field;
    } else {
      var processed' := if sig.None? then processed else Put(processed, name, decode(sig.value).0);
      assert e == LoadSignedFields(processed', tail, policy, decode).error;
      LoadSignedFieldsFirstBreach(processed', tail, policy, decode);
      var i :| 0 <= i < |tail| && tail[i].0 == e.field && SignatureBreaks(processed', tail[i], policy)
                && SignaturesAllowed(processed', tail[..i], policy);
      assert tail[i].0 != name by {
        KeyAt(tail, i);
      }
      if sig.Some? {
        KeysPut(processed, name, decode(sig.value).0);
      }
      assert SignatureBreaks(processed, fields[i + 1], policy);
      assert SignaturesAllowed(processed, fields[..i + 1], policy) by {
        SignaturesAllowedCons(processed, fields[..i + 1], policy);
        assert fields[..i + 1][1..] == tail[..i];
      }
    }
  }

  /** The names `SignedNames` lists are exactly the fields `SignatureIn` finds signed. */
  lemma {:induction false} SignedNamesSpec(fields: seq<(string, FieldDecorators)>, f: string)
    requires DistinctKeys(fields)
    ensures f in SignedNames(fields) <==> SignatureIn(fields, f).Some?
    decreases |fields|
  {
    if |fields| > 0 {
      SignedNamesSpec(fields[1..], f);
    }
  }

  /**
    The pre-load hook succeeds exactly when the signed-fields policy holds of
    the extracted entries and decorators; a plain value never stands in for a
    required signature. On success the result is the plain entries followed by
    the decoded value of each signed field, and the decorators extracted.
   */
  lemma ExtractDecoratorsSpec(
    data: Wire,
    meta: SchemaMeta,
    extract: Wire -> Result<(Wire, DecoratorSet), Error>,
    decode: FieldSignature -> (Value, int))
    requires extract(data).Success? && WellFormed(extract(data).value.1)
    ensures var (plain, d) := extract(data).value;
            var r := ExtractDecorators(data, meta, extract, decode);
            && (r.Success? <==> LoadPolicyHolds(plain, d, ExpectFields(meta)))
            && (r.Success? ==> r.value == (plain + DecodedEntries(d.fields, decode), d))
            && (r.Failure? ==> LoadErrorCause(r.error, plain, d, ExpectFields(meta)))
  {
    var (plain, d) := extract(data).value;
    var policy := ExpectFields(meta);
    LoadSignedFieldsSpec(plain, d.fields, policy, decode);
    forall f
      ensures f in SignedNames(d.fields) <==> SignatureOf(d, f).Some?
    {
      SignedNamesSpec(d.fields, f);
    }
    if LoadSignedFields(plain, d.fields, policy, decode).Failure? {
      LoadSignedFieldsFailure(plain, d.fields, policy, decode);
      LoadSignedFieldsFirstBreach(plain, d.fields, policy, decode);
    }
  }

  /**
    A whole load succeeds exactly when the signed-fields policy holds and the
    field schema accepts the plain entries completed with the decoded signed
    values; the loaded message is the schema's, carrying the extracted
    decorators. A breach of the policy is reported by its own error.
   */
  lemma LoadSpec(
    data: Wire,
    meta: SchemaMeta,
    extract: Wire -> Result<(Wire, DecoratorSet), Error>,
    decode: FieldSignature -> (Value, int),
    makeObject: Wire -> Result<AgentMessage, Error>)
    requires extract(data).Success? && WellFormed(extract(data).value.1)
    ensures var (plain, d) := extract(data).value;
            var input := plain + DecodedEntries(d.fields, decode);
            var r := Load(data, meta, extract, decode, makeObject);
            && (r.Success? <==> LoadPolicyHolds(plain, d, ExpectFields(meta)) && makeObject(input).Success?)
            && (r.Success? ==> r.value == makeObject(input).value.(decorators := d))
            && (!LoadPolicyHolds(plain, d, ExpectFields(meta)) ==> LoadErrorCause(r.error, plain, d, ExpectFields(meta)))
  {
    ExtractDecoratorsSpec(data, meta, extract, decode);
  }

  /** A policy field with a plain value but no signature makes the load fail. */
  lemma PlainValueDoesNotSatisfyPolicy(
    data: Wire,
    meta: SchemaMeta,
    extract: Wire -> Result<(Wire, DecoratorSet), Error>,
    decode: FieldSignature -> (Value, int),
    f: string)
    requires extract(data).Success? && WellFormed(extract(data).value.1)
    requires f in ExpectFields(meta) && SignatureOf(extract(data).value.1, f).None?
    ensures ExtractDecorators(data, meta, extract, decode).Failure?
  {
    ExtractDecoratorsSpec(data, meta, extract, decode);
  }

  // ---------------------------------------------------------------------
  // Dump: the pre-dump hook, then the two post-dump hooks.
  // ---------------------------------------------------------------------

  /** The per-call state the pre-dump hook leaves for the post-dump hooks. */
  datatype DumpState = DumpState(decoratorsDict: Wire, signatures: Wire)

  /**
    The loop of the pre-dump hook over a copy of the per-field decorators:
    each `sig` entry is serialized into the signature table, by field name in
    field order, and deleted from the copy. Returns the copy's per-field
    decorators and the table.
   */
  function StageSignatures(
    fields: seq<(string, FieldDecorators)>,
    serialize: FieldSignature -> Value): (r: (seq<(string, FieldDecorators)>, Wire))
    ensures Keys(r.0) == Keys(fields)
    ensures Keys(r.1) == SignedNames(fields)
    decreases |fields|
  {
    if |fields| == 0 then ([], [])
    else
      var staged := StageSignatures(fields[1..], serialize);
      var name := fields[0].0;
      var fd := fields[0].1;
      var entry := (name, fd.(sig := None));
      if fd.sig.Some? then ([entry] + staged.0, [(name, serialize(fd.sig.value))] + staged.1)
      else ([entry] + staged.0, staged.1)
  }

  /** The copy of a decorator set from which the pre-dump hook removed every signature. */
  function StagedCopy(d: DecoratorSet, serialize: FieldSignature -> Value): DecoratorSet {
    d.(fields := StageSignatures(d.fields, serialize).0)
  }

  /**
    `check_dump_decorators` (pre-dump): stages the signatures out of a copy of
    the message's decorators, renders the copy with `toDict`, and refuses to
    dump when a field of the policy has no signature. The message itself is
    left as it was.
   */
  function CheckDumpDecorators(
    m: AgentMessage,
    meta: SchemaMeta,
    serialize: FieldSignature -> Value,
    toDict: DecoratorSet -> Wire): (r: Result<DumpState, Error>)
    ensures r.Failure? <==> !(forall f :: f in ExpectFields(meta) ==> f in SignedNames(m.decorators.fields))
    ensures r.Failure? ==>
              && r.error.MissingSignatureForField?
              && r.error.field in ExpectFields(meta)
              && r.error.field !in SignedNames(m.decorators.fields)
              && FirstNotFound(ExpectFields(meta), SignedNames(m.decorators.fields), r.error.field)
    ensures r.Success? ==> r.value == DumpState(toDict(StagedCopy(m.decorators, serialize)),
                                                StageSignatures(m.decorators.fields, serialize).1)
  {
    var staged := StageSignatures(m.decorators.fields, serialize);
    var state := DumpState(toDict(m.decorators.(fields := staged.0)), staged.1);
    match FirstMissing(ExpectFields(meta), Keys(state.signatures))
    case Some(f) => Failure(MissingSignatureForField(f))
    case None => Success(state)
  }

  /** The `@type` entry, then the `@id` entry, of the dumped fields, each only if present. */
  function HeadEntries(data: Wire): Wire {
    (match Get(data, "@type") case Some(v) => [("@type", v)] case None => [])
    + (match Get(data, "@id") case Some(v) => [("@id", v)] case None => [])
  }

  /**
    `dump_decorators` (post-dump): moves `@type` and `@id` to the front, then
    the rendered decorators, then the remaining dumped entries.
   */
  function DumpDecorators(data: Wire, decoratorsDict: Wire): (r: Wire)
    ensures |HeadEntries(data)| <= |r| && Keys(r)[..|HeadEntries(data)|] == Keys(HeadEntries(data))
  {
    var head := HeadEntries(data);
    var withDecorators := Update(head, decoratorsDict);
    UpdateKeepsKeyPrefix(head, decoratorsDict);
    UpdateKeepsKeyPrefix(withDecorators, BodyEntries(data));
    Update(withDecorators, BodyEntries(data))
  }

  /** The dumped fields other than `@type` and `@id`, in their order. */
  function BodyEntries(data: Wire): Wire {
    Remove(Remove(data, "@type"), "@id")
  }

  /** The wire key of the detached signature of field `name`. */
  function SigKey(name: string): string {
    name + "~sig"
  }

  /**
    `replace_signatures` (post-dump): for each staged signature in turn,
    deletes the field's plain entry (a missing one raises) and writes the
    signature under `<field>~sig`.
   */
  function ReplaceSignatures(data: Wire, signatures: Wire): (r: Result<Wire, Error>)
    ensures r.Failure? ==> r.error.MissingDumpedField? && r.error.field in Keys(signatures)
    decreases |signatures|
  {
    if |signatures| == 0 then Success(data)
    else
      var name := signatures[0].0;
      if name !in Keys(data) then Failure(MissingDumpedField(name))
      else ReplaceSignatures(Put(Remove(data, name), SigKey(name), signatures[0].1), signatures[1..])
  }

  /**
    A whole dump: the pre-dump hook, the business-field schema's output
    `plain` (which holds `@type` and `@id` when set), then the post-dump hooks
    in order.
   */
  function Dump(
    m: AgentMessage,
    meta: SchemaMeta,
    service: SignatureService,
    toDict: DecoratorSet -> Wire,
    plain: Wire): (r: Result<Wire, Error>)
    ensures CheckDumpDecorators(m, meta, service.serialize, toDict).Failure? ==>
              r == Failure(CheckDumpDecorators(m, meta, service.serialize, toDict).error)
  {
    var state :- CheckDumpDecorators(m, meta, service.serialize, toDict);
    ReplaceSignatures(DumpDecorators(plain, state.decoratorsDict), state.signatures)
  }

  /** Field names that contain no `~`, so none of them is another field's signature key. */
  predicate TildeFree(names: seq<string>) {
    forall n :: n in names ==> '~' !in n
  }

  /** The signature keys of a list of field names, in order. */
  function SigKeys(names: seq<string>): seq<string>
    decreases |names|
  {
    if |names| == 0 then [] else [SigKey(names[0])] + SigKeys(names[1..])
  }

  lemma SigKeyHasTilde(name: string)
    ensures '~' in SigKey(name)
  {
  }

  lemma SigKeyInjective(a: string, b: string)
    ensures SigKey(a) == SigKey(b) ==> a == b
  {
    if SigKey(a) == SigKey(b) {
      assert a == SigKey(a)[..|a|];
      assert b == SigKey(b)[..|b|];
    }
  }

  /** A key is the signature key of a listed name exactly when it is built from one. */
  lemma {:induction false} SigKeysSpec(names: seq<string>, k: string)
    ensures k in SigKeys(names) ==> '~' in k
    ensures forall n :: k == SigKey(n) ==> (k in SigKeys(names) <==> n in names)
    decreases |names|
  {
    if |names| > 0 {
      SigKeysSpec(names[1..], k);
      SigKeyHasTilde(names[0]);
      forall n | k == SigKey(n)
        ensures k in SigKeys(names) <==> n in names
      {
        SigKeyInjective(n, names[0]);
      }
    }
  }

  /**
    The staged copy keeps every field's entry, in place, minus its signature;
    the staged table maps exactly the signed fields to their serialized
    signatures.
   */
  lemma {:induction false} StageSignaturesSpec(
    fields: seq<(string, FieldDecorators)>,
    serialize: FieldSignature -> Value,
    f: string)
    requires DistinctKeys(fields)
    ensures var staged := StageSignatures(fields, serialize);
            && Get(staged.0, f) == (match Get(fields, f) case Some(fd) => Some(fd.(sig := None)) case None => None)
            && Get(staged.1, f) == (match SignatureIn(fields, f) case Some(sig) => Some(serialize(sig)) case None => None)
            && DistinctKeys(staged.0)
            && DistinctKeys(staged.1)
    decreases |fields|
  {
    if |fields| > 0 {
      StageSignaturesSpec(fields[1..], serialize, f);
      var staged := StageSignatures(fields, serialize);
      assert Keys(staged.1) == SignedNames(fields);
    }
  }

  /**
    Replacing the staged signatures succeeds exactly when every signed field
    has an entry to delete; otherwise it reports such a field.
   */
  lemma {:induction false} ReplaceSignaturesOutcome(data: Wire, signatures: Wire)
    requires DistinctKeys(signatures) && TildeFree(Keys(signatures))
    ensures ReplaceSignatures(data, signatures).Success? <==>
              forall f :: f in Keys(signatures) ==> f in Keys(data)
    ensures ReplaceSignatures(data, signatures).Failure? ==>
              var e := ReplaceSignatures(data, signatures).error;
              e.MissingDumpedField? && e.field in Keys(signatures) && e.field !in Keys(data)
    decreases |signatures|
  {
    if |signatures| > 0 {
      var name := signatures[0].0;
      var tail := signatures[1..];
      assert Keys(signatures) == [name] + Keys(tail);
      if name in Keys(data) {
        var removed := Remove(data, name);
        var data' := Put(removed, SigKey(name), signatures[0].1);
        assert ReplaceSignatures(data, signatures) == ReplaceSignatures(data', tail);
        assert forall f :: f in Keys(tail) ==> (f in Keys(data') <==> f in Keys(data)) by {
          KeysPut(removed, SigKey(name), signatures[0].1);
          forall f | f in Keys(tail)
            ensures f in Keys(data') <==> f in Keys(data)
          {
            assert f in Keys(signatures);
            SigKeyHasTilde(name);
            KeysRemove(data, name, f);
          }
        }
        ReplaceSignaturesOutcome(data', tail);
      }
    }
  }

  /**
    What a successful replacement leaves: no signed field as a plain key,
    each signature under `<field>~sig`, and every other key as it was.
   */
  lemma {:induction false} ReplaceSignaturesContents(data: Wire, signatures: Wire)
    requires DistinctKeys(signatures) && TildeFree(Keys(signatures))
    requires ReplaceSignatures(data, signatures).Success?
    ensures var r := ReplaceSignatures(data, signatures).value;
            && (forall f :: f in Keys(signatures) ==> Get(r, f).None? && Get(r, SigKey(f)) == Get(signatures, f))
            && (forall k :: k !in Keys(signatures) && k !in SigKeys(Keys(signatures)) ==> Get(r, k) == Get(data, k))
    decreases |signatures|
  {
    if |signatures| > 0 {
      var name := signatures[0].0;
      var tail := signatures[1..];
      var data' := Put(Remove(data, name), SigKey(name), signatures[0].1);
      assert ReplaceSignatures(data, signatures) == ReplaceSignatures(data', tail);
      var r := ReplaceSignatures(data', tail).value;
      ReplaceSignaturesStep(data, signatures);
      ReplaceSignaturesContents(data', tail);
      forall f | f in Keys(signatures)
        ensures Get(r, f).None? && Get(r, SigKey(f)) == Get(signatures, f)
      {
        if f != name {
          assert f in Keys(tail);
        }
      }
      forall k | k !in Keys(signatures) && k !in SigKeys(Keys(signatures))
        ensures Get(r, k) == Get(data, k)
      {
        assert k != name && k != SigKey(name) && k !in Keys(tail) && k !in SigKeys(Keys(tail));
      }
    }
  }

  /**
    One step of `ReplaceSignatures`: how the entries after the first
    replacement relate to the input, and how the remaining signatures relate
    to the whole table.
   */
  lemma ReplaceSignaturesStep(data: Wire, signatures: Wire)
    requires |signatures| > 0
    requires DistinctKeys(signatures) && TildeFree(Keys(signatures))
    ensures var name := signatures[0].0;
            var data' := Put(Remove(data, name), SigKey(name), signatures[0].1);
            var tail := signatures[1..];
            && DistinctKeys(tail) && TildeFree(Keys(tail))
            && Get(data', name).None?
            && Get(data', SigKey(name)) == Some(signatures[0].1)
            && (forall k :: k != name && k != SigKey(name) ==> Get(data', k) == Get(data, k))
            && name !in Keys(tail) && name !in SigKeys(Keys(tail))
            && SigKey(name) !in Keys(tail) && SigKey(name) !in SigKeys(Keys(tail))
            && (forall k :: k in SigKeys(Keys(signatures)) <==> k == SigKey(name) || k in SigKeys(Keys(tail)))
            && (forall f :: f in Keys(tail) ==> Get(tail, f) == Get(signatures, f))
            && Get(signatures, name) == Some(signatures[0].1)
  {
    var name := signatures[0].0;
    var tail := signatures[1..];
    var v := signatures[0].1;
    var removed := Remove(data, name);
    var data' := Put(removed, SigKey(name), v);
    assert Keys(signatures) == [name] + Keys(tail);
    forall k
      ensures Get(data', k) == if k == SigKey(name) then Some(v) else if k == name then None else Get(data, k)
    {
      GetPut(removed, SigKey(name), v, k);
      GetRemove(data, name, k);
    }
    SigKeyHasTilde(name);
    SigKeysSpec(Keys(tail), name);
    SigKeysSpec(Keys(tail), SigKey(name));
    assert SigKeys(Keys(signatures)) == [SigKey(name)] + SigKeys(Keys(tail));
  }

  /** Replacing signatures never moves the first `n` keys when none of them is a signed field. */
  lemma {:induction false} ReplaceSignaturesKeepsKeyPrefix(data: Wire, signatures: Wire, n: nat)
    requires n <= |data|
    requires forall f :: f in Keys(signatures) ==> f !in Keys(data)[..n]
    ensures ReplaceSignatures(data, signatures).Success? ==>
              var r := ReplaceSignatures(data, signatures).value;
              n <= |r| && Keys(r)[..n] == Keys(data)[..n]
    decreases |signatures|
  {
    if |signatures| > 0 && signatures[0].0 in Keys(data) {
      var name := signatures[0].0;
      assert Keys(signatures) == [name] + Keys(signatures[1..]);
      var removed := Remove(data, name);
      RemoveKeepsKeyPrefix(data, name, n);
      KeysPut(removed, SigKey(name), signatures[0].1);
      var data' := Put(removed, SigKey(name), signatures[0].1);
      assert Keys(data')[..n] == Keys(data)[..n];
      ReplaceSignaturesKeepsKeyPrefix(data', signatures[1..], n);
    }
  }

  /** The keys `dump_decorators` emits are those of the dumped fields and of the rendered decorators. */
  lemma KeysDumpDecorators(data: Wire, decoratorsDict: Wire, k: string)
    ensures k in Keys(DumpDecorators(data, decoratorsDict)) <==> k in Keys(data) || k in Keys(decoratorsDict)
    ensures k in Keys(HeadEntries(data)) <==> (k == "@type" || k == "@id") && k in Keys(data)
  {
    var head := HeadEntries(data);
    KeysAppend(match Get(data, "@type") case Some(v) => [("@type", v)] case None => [],
               match Get(data, "@id") case Some(v) => [("@id", v)] case None => []);
    var rest := BodyEntries(data);
    KeysRemove(data, "@type", k);
    KeysRemove(Remove(data, "@type"), "@id", k);
    KeysUpdate(head, decoratorsDict, k);
    KeysUpdate(Update(head, decoratorsDict), rest, k);
  }

  /** The fields a decorator set signs, read through `SignatureOf`. */
  lemma SignedNamesOf(d: DecoratorSet)
    requires WellFormed(d)
    ensures forall f :: f in SignedNames(d.fields) <==> SignatureOf(d, f).Some?
  {
    forall f
      ensures f in SignedNames(d.fields) <==> SignatureOf(d, f).Some?
    {
      SignedNamesSpec(d.fields, f);
    }
  }

  /** The staged signature table, described through `SignatureOf`. */
  lemma StagedTable(d: DecoratorSet, serialize: FieldSignature -> Value)
    requires WellFormed(d)
    ensures var table := StageSignatures(d.fields, serialize).1;
            && DistinctKeys(table)
            && Keys(table) == SignedNames(d.fields)
            && forall f :: Get(table, f) == (match SignatureOf(d, f) case Some(sig) => Some(serialize(sig)) case None => None)
  {
    forall f
      ensures Get(StageSignatures(d.fields, serialize).1, f)
                == (match SignatureOf(d, f) case Some(sig) => Some(serialize(sig)) case None => None)
    {
      StageSignaturesSpec(d.fields, serialize, f);
    }
    StageSignaturesSpec(d.fields, serialize, "");
  }

  /**
    The post-dump hooks of a dump whose pre-dump check passed: they succeed
    exactly when every signed field was dumped or rendered, and then leave
    each signed field only as `<field>~sig` with its serialized signature.
   */
  lemma PostDumpSpec(d: DecoratorSet, serialize: FieldSignature -> Value, dict: Wire, plain: Wire)
    requires WellFormed(d) && TildeFree(SignedNames(d.fields))
    ensures var r := ReplaceSignatures(DumpDecorators(plain, dict), StageSignatures(d.fields, serialize).1);
            && (r.Success? <==> forall f :: SignatureOf(d, f).Some? ==> f in Keys(plain) || f in Keys(dict))
            && (r.Failure? ==>
                  && r.error.MissingDumpedField?
                  && SignatureOf(d, r.error.field).Some?
                  && r.error.field !in Keys(plain) && r.error.field !in Keys(dict))
            && (r.Success? ==>
                  forall f :: SignatureOf(d, f).Some? ==>
                    && Get(r.value, f).None?
                    && Get(r.value, SigKey(f)) == Some(serialize(SignatureOf(d, f).value)))
  {
    var table := StageSignatures(d.fields, serialize).1;
    var merged := DumpDecorators(plain, dict);
    StagedTable(d, serialize);
    SignedNamesOf(d);
    forall f
      ensures f in Keys(merged) <==> f in Keys(plain) || f in Keys(dict)
    {
      KeysDumpDecorators(plain, dict, f);
    }
    ReplaceSignaturesOutcome(merged, table);
    if ReplaceSignatures(merged, table).Success? {
      ReplaceSignaturesContents(merged, table);
    }
  }

  /**
    A dump succeeds exactly when every field of the policy is signed and
    every signed field has an entry among the dumped fields or rendered
    decorators; a failure names a policy field without a signature or a
    signed field with no entry to replace.
   */
  lemma DumpOutcome(
    m: AgentMessage,
    meta: SchemaMeta,
    service: SignatureService,
    toDict: DecoratorSet -> Wire,
    plain: Wire)
    requires WellFormed(m.decorators)
    requires TildeFree(SignedNames(m.decorators.fields))
    ensures var d := m.decorators;
            var r := Dump(m, meta, service, toDict, plain);
            var dict := toDict(StagedCopy(d, service.serialize));
            && (r.Success? <==>
                  && (forall f :: f in ExpectFields(meta) ==> SignatureOf(d, f).Some?)
                  && (forall f :: SignatureOf(d, f).Some? ==> f in Keys(plain) || f in Keys(dict)))
            && (r.Failure? ==>
                  || (&& r.error.MissingSignatureForField?
                      && r.error.field in ExpectFields(meta)
                      && SignatureOf(d, r.error.field).None?)
                  || (&& r.error.MissingDumpedField?
                      && SignatureOf(d, r.error.field).Some?
                      && r.error.field !in Keys(plain) && r.error.field !in Keys(dict)))
  {
    var d := m.decorators;
    var dict := toDict(StagedCopy(d, service.serialize));
    SignedNamesOf(d);
    if CheckDumpDecorators(m, meta, service.serialize, toDict).Success? {
      PostDumpSpec(d, service.serialize, dict, plain);
    }
  }

  /**
    After a successful dump no signed field appears as a plain key; each
    appears only as `<field>~sig`, holding its serialized signature.
   */
  lemma DumpOutput(
    m: AgentMessage,
    meta: SchemaMeta,
    service: SignatureService,
    toDict: DecoratorSet -> Wire,
    plain: Wire)
    requires WellFormed(m.decorators)
    requires TildeFree(SignedNames(m.decorators.fields))
    requires Dump(m, meta, service, toDict, plain).Success?
    ensures var d := m.decorators;
            var r := Dump(m, meta, service, toDict, plain).value;
            forall f :: SignatureOf(d, f).Some? ==>
              && Get(r, f).None?
              && Get(r, SigKey(f)) == Some(service.serialize(SignatureOf(d, f).value))
  {
    var dict := toDict(StagedCopy(m.decorators, service.serialize));
    PostDumpSpec(m.decorators, service.serialize, dict, plain);
  }

  /**
    The dump starts with `@type` and then `@id`, each only when the dumped
    fields hold it, provided neither is itself a signed field.
   */
  lemma DumpKeepsHead(
    m: AgentMessage,
    meta: SchemaMeta,
    service: SignatureService,
    toDict: DecoratorSet -> Wire,
    plain: Wire)
    requires "@type" !in SignedNames(m.decorators.fields) && "@id" !in SignedNames(m.decorators.fields)
    requires Dump(m, meta, service, toDict, plain).Success?
    ensures var head := Keys(HeadEntries(plain));
            var r := Dump(m, meta, service, toDict, plain).value;
            |head| <= |r| && Keys(r)[..|head|] == head
  {
    var d := m.decorators;
    var dict := toDict(StagedCopy(d, service.serialize));
    var table := StageSignatures(d.fields, service.serialize).1;
    var head := HeadEntries(plain);
    var rest := BodyEntries(plain);
    UpdateKeepsKeyPrefix(head, dict);
    UpdateKeepsKeyPrefix(Update(head, dict), rest);
    var merged := DumpDecorators(plain, dict);
    assert Keys(merged)[..|head|] == Keys(head);
    forall f | f in Keys(table)
      ensures f !in Keys(merged)[..|head|]
    {
      KeysDumpDecorators(plain, dict, f);
    }
    ReplaceSignaturesKeepsKeyPrefix(merged, table, |head|);
  }

  /**
    A message that loaded under a policy passes the pre-dump check under that
    policy. The converse does not hold: see `DumpCheckAcceptsWhatLoadRejects`.
   */
  lemma LoadedMessagePassesDumpCheck(
    data: Wire,
    meta: SchemaMeta,
    extract: Wire -> Result<(Wire, DecoratorSet), Error>,
    decode: FieldSignature -> (Value, int),
    makeObject: Wire -> Result<AgentMessage, Error>,
    serialize: FieldSignature -> Value,
    toDict: DecoratorSet -> Wire)
    requires extract(data).Success? && WellFormed(extract(data).value.1)
    requires Load(data, meta, extract, decode, makeObject).Success?
    ensures CheckDumpDecorators(Load(data, meta, extract, decode, makeObject).value, meta, serialize, toDict).Success?
  {
  }

  /**
    The pre-dump check asks only that every policy field be signed; it does
    not reject a signature on a field outside the policy, which the pre-load
    hook refuses. So under an unset policy a message whose one signature is on
    field `foo` passes the pre-dump check, while loading the same decorators
    fails with the unexpected-signature error.
   */
  lemma DumpCheckAcceptsWhatLoadRejects(
    m: AgentMessage,
    sig: FieldSignature,
    serialize: FieldSignature -> Value,
    toDict: DecoratorSet -> Wire,
    decode: FieldSignature -> (Value, int))
    requires m.decorators == DecoratorSet(None, map[], [("foo", FieldDecorators(Some(sig), map[]))])
    ensures CheckDumpDecorators(m, SchemaMeta(None), serialize, toDict).Success?
    ensures ExtractDecorators([], SchemaMeta(None), _ => Success(([], m.decorators)), decode)
              == Failure(UnexpectedFieldSignature("foo"))
  {
  }

  /** Staged signatures renamed to their `<field>~sig` wire keys, in order. */
  function SigEntries(signatures: Wire): Wire
    decreases |signatures|
  {
    if |signatures| == 0 then []
    else [(SigKey(signatures[0].0), signatures[0].1)] + SigEntries(signatures[1..])
  }

  /** The `<field>~sig` entries a message's signatures produce, in field order. */
  function WireSignatures(fields: seq<(string, FieldDecorators)>, serialize: FieldSignature -> Value): Wire
    decreases |fields|
  {
    if |fields| == 0 then []
    else if fields[0].1.sig.Some? then
      [(SigKey(fields[0].0), serialize(fields[0].1.sig.value))] + WireSignatures(fields[1..], serialize)
    else WireSignatures(fields[1..], serialize)
  }

  lemma {:induction false} StagedSigEntries(fields: seq<(string, FieldDecorators)>, serialize: FieldSignature -> Value)
    ensures SigEntries(StageSignatures(fields, serialize).1) == WireSignatures(fields, serialize)
    decreases |fields|
  {
    if |fields| > 0 {
      StagedSigEntries(fields[1..], serialize);
    }
  }

  /** No listed name is already used, in `data`, by its `<field>~sig` key. */
  ghost predicate SigKeysUnused(data: Wire, names: seq<string>) {
    forall f :: f in names ==> SigKey(f) !in Keys(data)
  }

  /** One step of `ReplaceSignatures`, under the hypotheses of the layout lemma below. */
  lemma ReplaceSignaturesLayoutStep(data: Wire, signatures: Wire)
    requires |signatures| > 0
    requires DistinctKeys(signatures)
    requires forall f :: f in Keys(signatures) ==> f in Keys(data)
    requires SigKeysUnused(data, Keys(signatures))
    ensures var name := signatures[0].0;
            var entry := (SigKey(name), signatures[0].1);
            var data' := Put(Remove(data, name), SigKey(name), signatures[0].1);
            var tail := signatures[1..];
            && data' == Remove(data, name) + [entry]
            && DistinctKeys(tail)
            && (forall f :: f in Keys(tail) ==> f in Keys(data'))
            && SigKeysUnused(data', Keys(tail))
            && Keys(signatures) == [name] + Keys(tail)
            && entry.0 !in Keys(tail)
  {
    var name := signatures[0].0;
    var tail := signatures[1..];
    assert Keys(signatures) == [name] + Keys(tail);
    var removed := Remove(data, name);
    var entry := (SigKey(name), signatures[0].1);
    KeysRemove(data, name, SigKey(name));
    PutFresh(removed, SigKey(name), signatures[0].1);
    var data' := removed + [entry];
    KeysAppend(removed, [entry]);
    forall g | g in Keys(tail)
      ensures g in Keys(data')
    {
      KeysRemove(data, name, g);
    }
    forall g | g in Keys(tail)
      ensures SigKey(g) !in Keys(data')
    {
      KeysRemove(data, name, SigKey(g));
      SigKeyInjective(g, name);
    }
  }

  /**
    When every signed field has a plain entry and no `<field>~sig` key is in
    use yet, replacing signatures deletes the signed fields' entries and
    appends their signature entries in order.
   */
  lemma {:induction false} ReplaceSignaturesLayout(data: Wire, signatures: Wire)
    requires DistinctKeys(signatures)
    requires forall f :: f in Keys(signatures) ==> f in Keys(data)
    requires SigKeysUnused(data, Keys(signatures))
    ensures ReplaceSignatures(data, signatures) == Success(RemoveAll(data, Keys(signatures)) + SigEntries(signatures))
    decreases |signatures|
  {
    if |signatures| == 0 {
      assert data + [] == data;
    } else {
      var name := signatures[0].0;
      var tail := signatures[1..];
      var removed := Remove(data, name);
      var entry := (SigKey(name), signatures[0].1);
      var kept := RemoveAll(removed, Keys(tail));
      assert ReplaceSignatures(data, signatures) == ReplaceSignatures(removed + [entry], tail)
          && ReplaceSignatures(removed + [entry], tail) == Success(kept + [entry] + SigEntries(tail)) by {
        ReplaceSignaturesLayoutStep(data, signatures);
        ReplaceSignaturesLayout(removed + [entry], tail);
        RemoveAllAppend(removed, [entry], Keys(tail));
        RemoveAllAbsent([entry], Keys(tail));
      }
      assert RemoveAll(data, Keys(signatures)) == kept by {
        assert Keys(signatures)[0] == name && Keys(signatures)[1..] == Keys(tail);
      }
      assert kept + [entry] + SigEntries(tail) == kept + SigEntries(signatures);
    }
  }

  /** The plain entries of a dump split into `@type`/`@id` and the rest. */
  lemma HeadBodyKeys(data: Wire, k: string)
    ensures k in Keys(HeadEntries(data)) <==> (k == "@type" || k == "@id") && k in Keys(data)
    ensures k in Keys(BodyEntries(data)) <==> k != "@type" && k != "@id" && k in Keys(data)
    ensures DistinctKeys(HeadEntries(data))
    ensures DistinctKeys(data) ==> DistinctKeys(BodyEntries(data))
  {
    KeysDumpDecorators(data, [], k);
    KeysRemove(data, "@type", k);
    KeysRemove(Remove(data, "@type"), "@id", k);
    if DistinctKeys(data) {
      DistinctRemove(data, "@type");
      DistinctRemove(Remove(data, "@type"), "@id");
    }
  }

  /**
    When the rendered decorators use neither `@type`, `@id` nor any dumped
    field's key, merging them keeps the three groups side by side.
   */
  lemma DumpDecoratorsLayout(data: Wire, decoratorsDict: Wire)
    requires DistinctKeys(data) && DistinctKeys(decoratorsDict)
    requires Disjoint(Keys(decoratorsDict), Keys(data) + ["@type", "@id"])
    ensures DumpDecorators(data, decoratorsDict) == HeadEntries(data) + decoratorsDict + BodyEntries(data)
  {
    var head := HeadEntries(data);
    var body := BodyEntries(data);
    HeadBodyKeys(data, "");
    forall k | k in Keys(decoratorsDict)
      ensures k !in Keys(head)
    {
      HeadBodyKeys(data, k);
    }
    UpdateFreshAppends(head, decoratorsDict);
    KeysAppend(head, decoratorsDict);
    forall k | k in Keys(body)
      ensures k !in Keys(head + decoratorsDict)
    {
      HeadBodyKeys(data, k);
    }
    UpdateFreshAppends(head + decoratorsDict, body);
  }

  /**
    The exact shape of a dump, when the rendered decorators and the dumped
    fields use separate keys, every signed field was dumped as a plain field
    other than `@type` and `@id`, and no `<field>~sig` key is otherwise in
    use: `@type` and `@id`, then the rendered decorators, then the other
    dumped fields without the signed ones, then one `<field>~sig` entry per
    signature in field order.
   */
  lemma DumpLayout(
    m: AgentMessage,
    meta: SchemaMeta,
    service: SignatureService,
    toDict: DecoratorSet -> Wire,
    plain: Wire)
    requires WellFormed(m.decorators)
    requires forall f :: f in ExpectFields(meta) ==> f in SignedNames(m.decorators.fields)
    requires DistinctKeys(plain)
    requires var dict := toDict(StagedCopy(m.decorators, service.serialize));
             && DistinctKeys(dict)
             && Disjoint(Keys(dict), Keys(plain) + ["@type", "@id"])
    requires var names := SignedNames(m.decorators.fields);
             var dict := toDict(StagedCopy(m.decorators, service.serialize));
             && TildeFree(names)
             && (forall f :: f in names ==> f in Keys(plain) && f != "@type" && f != "@id")
             && SigKeysUnused(plain, names) && SigKeysUnused(dict, names)
    ensures var names := SignedNames(m.decorators.fields);
            var dict := toDict(StagedCopy(m.decorators, service.serialize));
            Dump(m, meta, service, toDict, plain)
              == Success(HeadEntries(plain) + dict + RemoveAll(BodyEntries(plain), names)
                         + WireSignatures(m.decorators.fields, service.serialize))
  {
    var d := m.decorators;
    var names := SignedNames(d.fields);
    var dict := toDict(StagedCopy(d, service.serialize));
    var table := StageSignatures(d.fields, service.serialize).1;
    var head := HeadEntries(plain);
    var body := BodyEntries(plain);
    StageSignaturesSpec(d.fields, service.serialize, "");
    DumpDecoratorsLayout(plain, dict);
    var merged := head + dict + body;
    KeysAppend(head, dict);
    KeysAppend(head + dict, body);
    forall f | f in names
      ensures f in Keys(merged) && SigKey(f) !in Keys(merged)
      ensures f !in Keys(head) && f !in Keys(dict)
    {
      HeadBodyKeys(plain, f);
      HeadBodyKeys(plain, SigKey(f));
    }
    ReplaceSignaturesLayout(merged, table);
    RemoveAllAppend(head + dict, body, names);
    RemoveAllAppend(head, dict, names);
    RemoveAllAbsent(head, names);
    RemoveAllAbsent(dict, names);
    StagedSigEntries(d.fields, service.serialize);
  }
}

=== FILE: decorators.dfy ===
/**
  The decorator set a message owns: out-of-band metadata split into global
  decorators (`~thread`, ...) and per-field decorators (`<field>~sig`, ...).
  How wire keys are parsed into a set and written back out lives in the
  decorator package and is not part of this model.
 */
module Decorators {
  import opened Wrappers
  import opened Values
  import opened Signatures
  import opened OrderedMaps

  /** The `~thread` decorator: the thread id and the optional parent thread id. */
  datatype ThreadDecorator = ThreadDecorator(thid: Option<string>, pthid: Option<string>)

  /** The decorators of one field: its `sig` entry, and every other kind by name. */
  datatype FieldDecorators = FieldDecorators(sig: Option<FieldSignature>, others: map<string, Value>)

  /**
    A decorator set: the global `thread` decorator, the other global
    decorators by name, and the per-field decorators keyed by field name in
    the order the fields were first accessed.
   */
  datatype DecoratorSet = DecoratorSet(
    thread: Option<ThreadDecorator>,
    others: map<string, Value>,
    fields: seq<(string, FieldDecorators)>)

  const NoFieldDecorators := FieldDecorators(None, map[])

  const EmptyDecoratorSet := DecoratorSet(None, map[], [])

  /**
    The per-field entries form a dict, one entry per field name, and the
    `thread` global lives only in its own slot.
   */
  predicate WellFormed(d: DecoratorSet) {
    && DistinctKeys(d.fields)
    && "thread" !in d.others
  }

  /** The signature a per-field decorator list holds for field `name`, if any. */
  function SignatureIn(fields: seq<(string, FieldDecorators)>, name: string): Option<FieldSignature> {
    match Get(fields, name)
    case Some(fd) => fd.sig
    case None => None
  }

  /** The signature stored for field `name`, read without creating an entry. */
  function SignatureOf(d: DecoratorSet, name: string): Option<FieldSignature> {
    SignatureIn(d.fields, name)
  }

  /** The two sets agree on everything but the per-field entry of `name`. */
  ghost predicate AgreeExceptField(d: DecoratorSet, d': DecoratorSet, name: string) {
    && d'.thread == d.thread
    && d'.others == d.others
    && (forall n :: n != name ==> Get(d'.fields, n) == Get(d.fields, n))
  }

  /**
    `field(name)`: the decorators of field `name`, together with the set after
    the access, which holds a fresh empty entry when the field had none.
   */
  function Field(d: DecoratorSet, name: string): (r: (DecoratorSet, FieldDecorators))
    ensures Get(r.0.fields, name) == Some(r.1)
    ensures Get(d.fields, name).Some? ==> r.0 == d && Get(d.fields, name) == Some(r.1)
    ensures Get(d.fields, name).None? ==> r.1 == NoFieldDecorators
    ensures AgreeExceptField(d, r.0, name)
    ensures Keys(r.0.fields) == if name in Keys(d.fields) then Keys(d.fields) else Keys(d.fields) + [name]
    ensures WellFormed(d) ==> WellFormed(r.0)
  {
    match Get(d.fields, name)
    case Some(fd) => (d, fd)
    case None =>
      var fields := Put(d.fields, name, NoFieldDecorators);
      PutFrame(d.fields, name, NoFieldDecorators);
      KeysPut(d.fields, name, NoFieldDecorators);
      DistinctPutIf(d.fields, name, NoFieldDecorators);
      (d.(fields := fields), NoFieldDecorators)
  }

  /**
    `field(name)["sig"] = sig`: stores `sig` as the signature of field `name`,
    keeping that field's other decorators.
   */
  function SetFieldSignature(d: DecoratorSet, name: string, sig: FieldSignature): (r: DecoratorSet)
    ensures SignatureOf(r, name) == Some(sig)
    ensures AgreeExceptField(d, r, name)
    ensures Get(r.fields, name) == Some(Field(d, name).1.(sig := Some(sig)))
    ensures Keys(r.fields) == Keys(Field(d, name).0.fields)
    ensures WellFormed(d) ==> WellFormed(r)
  {
    var (d', fd) := Field(d, name);
    var fields := Put(d'.fields, name, fd.(sig := Some(sig)));
    PutFrame(d'.fields, name, fd.(sig := Some(sig)));
    KeysPut(d'.fields, name, fd.(sig := Some(sig)));
    DistinctPutIf(d'.fields, name, fd.(sig := Some(sig)));
    d'.(fields := fields)
  }
}

=== FILE: ordered_maps.dfy ===
/**
  Insertion-ordered dictionaries, as Python's `dict` and `OrderedDict` behave:
  an entry list in which assigning to an existing key keeps its position,
  assigning to a new key appends it, and deleting a key closes the gap.
  Every dictionary of the model is keyed by strings.
 */
module OrderedMaps {
  import opened Wrappers

  /** The keys of an entry list, in order. */
  function Keys<V>(m: seq<(string, V)>): (ks: seq<string>)
    ensures |ks| == |m|
  {
    if |m| == 0 then [] else [m[0].0] + Keys(m[1..])
  }

  /** The key at each position is the key of the entry there. */
  lemma {:induction false} KeyAt<V>(m: seq<(string, V)>, i: nat)
    requires i < |m|
    ensures Keys(m)[i] == m[i].0
    decreases i
  {
    if i > 0 {
      KeyAt(m[1..], i - 1);
    }
  }

  /** No key occurs twice: the shape every Python dict has. */
  predicate DistinctKeys<V>(m: seq<(string, V)>) {
    |m| == 0 || (m[0].0 !in Keys(m[1..]) && DistinctKeys(m[1..]))
  }

  /** No key of `a` is a key of `b`. */
  predicate Disjoint(a: seq<string>, b: seq<string>) {
    forall k :: k in a ==> k !in b
  }

  /** `d.get(k)`: the value stored under `k`, if any. */
  function Get<V>(m: seq<(string, V)>, k: string): (r: Option<V>)
    ensures r.None? <==> k !in Keys(m)
  {
    if |m| == 0 then None
    else if m[0].0 == k then Some(m[0].1)
    else Get(m[1..], k)
  }

  /** `d[k] = v`: overwrites `k` where it stands, or appends it when new. */
  function Put<V>(m: seq<(string, V)>, k: string, v: V): seq<(string, V)> {
    if |m| == 0 then [(k, v)]
    else if m[0].0 == k then [(k, v)] + m[1..]
    else [m[0]] + Put(m[1..], k, v)
  }

  /** `del d[k]` for a key that is present; no change for one that is absent. */
  function Remove<V>(m: seq<(string, V)>, k: string): seq<(string, V)> {
    if |m| == 0 then []
    else if m[0].0 == k then Remove(m[1..], k)
    else [m[0]] + Remove(m[1..], k)
  }

  /** `d.update(other)`: assigns each entry of `other` in turn. */
  function Update<V>(m: seq<(string, V)>, other: seq<(string, V)>): seq<(string, V)>
    decreases |other|
  {
    if |other| == 0 then m
    else Update(Put(m, other[0].0, other[0].1), other[1..])
  }

  lemma {:induction false} KeysAppend<V>(a: seq<(string, V)>, b: seq<(string, V)>)
    ensures Keys(a + b) == Keys(a) + Keys(b)
    decreases |a|
  {
    if |a| > 0 {
      assert (a + b)[1..] == a[1..] + b;
      KeysAppend(a[1..], b);
    } else {
      assert a + b == b;
    }
  }

  lemma {:induction false} GetAppend<V>(a: seq<(string, V)>, b: seq<(string, V)>, k: string)
    ensures Get(a + b, k) == if k in Keys(a) then Get(a, k) else Get(b, k)
    decreases |a|
  {
    if |a| > 0 {
      assert (a + b)[0] == a[0] && (a + b)[1..] == a[1..] + b;
      assert Keys(a) == [a[0].0] + Keys(a[1..]);
      if a[0].0 != k {
        GetAppend(a[1..], b, k);
      }
    } else {
      assert a + b == b;
    }
  }

  /** In a distinct-keyed list, `Get` finds each entry's own value. */
  lemma {:induction false} GetAt<V>(m: seq<(string, V)>, i: nat)
    requires DistinctKeys(m) && i < |m|
    ensures Get(m, m[i].0) == Some(m[i].1)
    decreases i
  {
    if i > 0 {
      assert m[1..][i - 1] == m[i];
      KeyAt(m[1..], i - 1);
      GetAt(m[1..], i - 1);
    }
  }

  /** A key that `Get` finds is stored at some position. */
  lemma {:induction false} GetFound<V>(m: seq<(string, V)>, k: string)
    requires Get(m, k).Some?
    ensures exists i :: 0 <= i < |m| && m[i] == (k, Get(m, k).value)
    decreases |m|
  {
    if m[0].0 != k {
      GetFound(m[1..], k);
      var i :| 0 <= i < |m[1..]| && m[1..][i] == (k, Get(m, k).value);
      assert m[i + 1] == (k, Get(m, k).value);
    }
  }

  /** Assignment changes the value under `k` and nothing else. */
  lemma {:induction false} GetPut<V>(m: seq<(string, V)>, k: string, v: V, j: string)
    ensures Get(Put(m, k, v), j) == if j == k then Some(v) else Get(m, j)
    decreases |m|
  {
    if |m| > 0 {
      if m[0].0 == k {
        assert (Put(m, k, v))[1..] == m[1..];
      } else {
        GetPut(m[1..], k, v, j);
      }
    }
  }

  /** Assignment never moves a key: an existing key stays put, a new one goes last. */
  lemma {:induction false} KeysPut<V>(m: seq<(string, V)>, k: string, v: V)
    ensures Keys(Put(m, k, v)) == if k in Keys(m) then Keys(m) else Keys(m) + [k]
    decreases |m|
  {
    if |m| > 0 && m[0].0 != k {
      KeysPut(m[1..], k, v);
    }
  }

  /** Assignment to `k` changes the lookup of `k` and of no other key. */
  lemma PutFrame<V>(m: seq<(string, V)>, k: string, v: V)
    ensures Get(Put(m, k, v), k) == Some(v)
    ensures forall j :: j != k ==> Get(Put(m, k, v), j) == Get(m, j)
  {
  }

  lemma DistinctPutIf<V>(m: seq<(string, V)>, k: string, v: V)
    ensures DistinctKeys(m) ==> DistinctKeys(Put(m, k, v))
  {
    if DistinctKeys(m) {
      DistinctPut(m, k, v);
    }
  }

  /** Assigning a new key appends the entry. */
  lemma {:induction false} PutFresh<V>(m: seq<(string, V)>, k: string, v: V)
    requires k !in Keys(m)
    ensures Put(m, k, v) == m + [(k, v)]
    decreases |m|
  {
    if |m| > 0 {
      PutFresh(m[1..], k, v);
    }
  }

  lemma {:induction false} DistinctPut<V>(m: seq<(string, V)>, k: string, v: V)
    requires DistinctKeys(m)
    ensures DistinctKeys(Put(m, k, v))
    decreases |m|
  {
    if |m| > 0 && m[0].0 != k {
      DistinctPut(m[1..], k, v);
      KeysPut(m[1..], k, v);
    }
  }

  /** Deletion removes the key and changes nothing else. */
  lemma {:induction false} GetRemove<V>(m: seq<(string, V)>, k: string, j: string)
    ensures Get(Remove(m, k), j) == if j == k then None else Get(m, j)
    decreases |m|
  {
    if |m| > 0 {
      GetRemove(m[1..], k, j);
    }
  }

  lemma {:induction false} KeysRemove<V>(m: seq<(string, V)>, k: string, j: string)
    ensures j in Keys(Remove(m, k)) <==> j != k && j in Keys(m)
    decreases |m|
  {
    if |m| > 0 {
      KeysRemove(m[1..], k, j);
    }
  }

  lemma {:induction false} DistinctRemove<V>(m: seq<(string, V)>, k: string)
    requires DistinctKeys(m)
    ensures DistinctKeys(Remove(m, k))
    decreases |m|
  {
    if |m| > 0 {
      DistinctRemove(m[1..], k);
      KeysRemove(m[1..], k, m[0].0);
    }
  }

  /** Deleting a key outside a prefix leaves the prefix in place. */
  lemma RemoveKeepsPrefix<V>(p: seq<(string, V)>, s: seq<(string, V)>, k: string)
    requires k !in Keys(p)
    ensures Remove(p + s, k) == p + Remove(s, k)
  {
    RemoveAppend(p, s, k);
    RemoveAbsent(p, k);
  }

  /** Assigning a key that is new appends it, so an update's first step extends the list. */
  lemma UpdateFreshStep<V>(m: seq<(string, V)>, other: seq<(string, V)>)
    requires |other| > 0 && other[0].0 !in Keys(m)
    ensures Update(m, other) == Update(m + [other[0]], other[1..])
  {
    PutFresh(m, other[0].0, other[0].1);
  }

  /** The remaining entries of a fresh update stay fresh after its first step. */
  lemma FreshTail<V>(m: seq<(string, V)>, other: seq<(string, V)>)
    requires |other| > 0 && DistinctKeys(other) && Disjoint(Keys(other), Keys(m))
    ensures other[0].0 !in Keys(m)
    ensures DistinctKeys(other[1..]) && Disjoint(Keys(other[1..]), Keys(m + [other[0]]))
  {
    var k := other[0].0;
    assert Keys(other) == [k] + Keys(other[1..]);
    KeysAppend(m, [other[0]]);
  }

  /** Updating with entries whose keys are all new appends them in order. */
  lemma {:induction false} UpdateFreshAppends<V>(m: seq<(string, V)>, other: seq<(string, V)>)
    requires DistinctKeys(other)
    requires Disjoint(Keys(other), Keys(m))
    ensures Update(m, other) == m + other
    decreases |other|
  {
    if |other| > 0 {
      var m' := m + [other[0]];
      var rest := other[1..];
      assert m' + rest == m + other;
      assert Update(m, other) == Update(m', rest) && DistinctKeys(rest) && Disjoint(Keys(rest), Keys(m')) by {
        FreshTail(m, other);
        UpdateFreshStep(m, other);
      }
      UpdateFreshAppends(m', rest);
    }
  }

  /** An update never moves the keys already present. */
  lemma {:induction false} UpdateKeepsKeyPrefix<V>(m: seq<(string, V)>, other: seq<(string, V)>)
    ensures |Keys(m)| <= |Keys(Update(m, other))|
    ensures Keys(Update(m, other))[..|m|] == Keys(m)
    decreases |other|
  {
    if |other| > 0 {
      var m' := Put(m, other[0].0, other[0].1);
      KeysPut(m, other[0].0, other[0].1);
      UpdateKeepsKeyPrefix(m', other[1..]);
      assert Keys(m')[..|m|] == Keys(m);
    }
  }

  /** An update holds the keys of both lists and no others. */
  lemma {:induction false} KeysUpdate<V>(m: seq<(string, V)>, other: seq<(string, V)>, k: string)
    ensures k in Keys(Update(m, other)) <==> k in Keys(m) || k in Keys(other)
    decreases |other|
  {
    if |other| > 0 {
      KeysPut(m, other[0].0, other[0].1);
      KeysUpdate(Put(m, other[0].0, other[0].1), other[1..], k);
      assert Keys(other) == [other[0].0] + Keys(other[1..]);
    }
  }

  /** Deleting a key that is not among the first `n` keys leaves those keys in place. */
  lemma RemoveKeepsKeyPrefix<V>(m: seq<(string, V)>, k: string, n: nat)
    requires n <= |m| && k !in Keys(m)[..n]
    ensures n <= |Remove(m, k)| && Keys(Remove(m, k))[..n] == Keys(m)[..n]
  {
    var p, s := m[..n], m[n..];
    assert m == p + s;
    KeysAppend(p, s);
    assert Keys(m)[..n] == Keys(p);
    RemoveKeepsPrefix(p, s, k);
    KeysAppend(p, Remove(s, k));
  }

  /** Deleting a key that is absent changes nothing. */
  lemma {:induction false} RemoveAbsent<V>(m: seq<(string, V)>, k: string)
    requires k !in Keys(m)
    ensures Remove(m, k) == m
    decreases |m|
  {
    if |m| > 0 {
      RemoveAbsent(m[1..], k);
    }
  }

  /** Deletion acts on each part of a concatenation separately. */
  lemma {:induction false} RemoveAppend<V>(a: seq<(string, V)>, b: seq<(string, V)>, k: string)
    ensures Remove(a + b, k) == Remove(a, k) + Remove(b, k)
    decreases |a|
  {
    if |a| > 0 {
      assert (a + b)[0] == a[0] && (a + b)[1..] == a[1..] + b;
      RemoveAppend(a[1..], b, k);
    } else {
      assert a + b == b;
    }
  }

  /** `m` without the entries of every key in `ks`, deleted in order. */
  function RemoveAll<V>(m: seq<(string, V)>, ks: seq<string>): seq<(string, V)>
    decreases |ks|
  {
    if |ks| == 0 then m else RemoveAll(Remove(m, ks[0]), ks[1..])
  }

  lemma {:induction false} RemoveAllAppend<V>(a: seq<(string, V)>, b: seq<(string, V)>, ks: seq<string>)
    ensures RemoveAll(a + b, ks) == RemoveAll(a, ks) + RemoveAll(b, ks)
    decreases |ks|
  {
    if |ks| > 0 {
      RemoveAppend(a, b, ks[0]);
      RemoveAllAppend(Remove(a, ks[0]), Remove(b, ks[0]), ks[1..]);
    }
  }

  lemma {:induction false} RemoveAllAbsent<V>(m: seq<(string, V)>, ks: seq<string>)
    requires Disjoint(ks, Keys(m))
    ensures RemoveAll(m, ks) == m
    decreases |ks|
  {
    if |ks| > 0 {
      RemoveAbsent(m, ks[0]);
      RemoveAllAbsent(m, ks[1..]);
    }
  }
}

=== FILE: signatures.dfy ===
/**
  Field signatures and the wallet-backed operations on them. The cryptography
  (creating, checking, decoding and encoding a signature) lives in the
  signature decorator and the wallet, which are not part of this model: they
  are carried as an opaque record of functions bound to one wallet.
 */
module Signatures {
  import opened Wrappers
  import opened Values

  /** A detached signature over one field's value and a timestamp. */
  datatype FieldSignature = FieldSignature(
    signatureType: string,
    sigData: string,
    signature: string,
    signer: string)

  /**
    The signature operations with the wallet already supplied:
    `create(value, signerVerkey, timestamp)` signs a value (a missing timestamp
    means "now", read inside the operation), `verify` checks a signature,
    `decode` recovers the signed `(value, timestamp)` pair, and `serialize`
    gives the wire form placed under a `<field>~sig` key.
   */
  datatype SignatureService = SignatureService(
    create: (Value, string, Option<int>) -> FieldSignature,
    verify: FieldSignature -> bool,
    decode: FieldSignature -> (Value, int),
    serialize: FieldSignature -> Value)
}

=== FILE: values.dfy ===
/** The JSON-like values carried by message fields, decorators and wire entries. */
module Values {

  /**
    A value as Python holds it after JSON parsing: `Null` is Python's `None`,
    and a number with a fraction or an exponent is a `Real` (kept exact, not
    rounded to a float).
   */
  datatype Value =
    | Null
    | Bool(b: bool)
    | Int(i: int)
    | Real(r: real)
    | Str(s: string)
    | List(items: seq<Value>)
    | Object(entries: seq<(string, Value)>)
}

=== FILE: wrappers.dfy ===
/** Failure-compatible Option and Result types used throughout the model. */
module Wrappers {

  /** A value that may be absent: Python's `None` versus a present value. */
  datatype Option<+T> = None | Some(value: T) {

    predicate IsFailure() {
      None?
    }

    function PropagateFailure<U>(): Option<U>
      requires None?
    {
      None
    }

    function Extract(): T
      requires Some?
    {
      value
    }

    /** The value, or `default` when absent (Python's `x or default`). */
    function GetOr(default: T): T {
      match this
      case Some(v) => v
      case None => default
    }
  }

  /** The outcome of an operation that may raise: a value or the error it raised. */
  datatype Result<+R, +E> = Success(value: R) | Failure(error: E) {

    predicate IsFailure() {
      Failure?
    }

    function PropagateFailure<U>(): Result<U, E>
      requires Failure?
    {
      Failure(error)
    }

    function Extract(): R
      requires Success?
    {
      value
    }
  }
}
